=== FILE: README.md ===
# Expo CLI: command dispatch and Expo Go acquisition, in Dafny

This project models two decision cores of the Expo command-line tool and
proves their behaviour.

**The `expo` entry point** (`packages/@expo/cli/bin/cli.ts`). It takes the
parsed top-level arguments (`--version`, `--help`, `--non-interactive` and the
positional list `_`) and decides one of five things:
- print the version and exit 0;
- print the grouped usage listing and exit 0;
- print a migration notice for a legacy name and exit 1;
- print a deprecation notice and exit 1;
- dispatch a registered command with its argument list.

The registry of 13 commands, the default command `start`, the 35-entry
migration table and the two deprecated names are fixed tables (module
`Registry`). The lazily imported command implementations are opaque
`CommandId`s. The decision is the total function `Cli.Decide` from an `Args`
record to an `Outcome`.

**Expo Go acquisition** (`packages/@expo/cli/src/utils/downloadExpoGoAsync.ts`).
`ExpoGo.DownloadExpoGo` models the source step by step:
- it creates the progress bar;
- it resolves the download URL: the explicit `url`, or else the SDK version's
  entry in the version catalog under the platform's key;
- it derives the file stem with `path.parse(url).name` (module `Paths`);
- it builds the platform's cache path and extract flag;
- it runs the download inside `try`/`finally`, which terminates the bar.

The home directory, the catalog service's answer, the download collaborator
and whether a progress bar could be created are parameters. The bar is a
class that counts its `terminate()` calls, and the method returns the bar it created. The method is proved against the
functional specification `ExpoGo.Acquire`. The properties of the
specification are then proved as lemmas.

Modules: `Wrappers` (Option, Result), `Registry` (the tables and the usage
grouping), `Cli` (the decision), `Paths` (`path.parse(...).name` and
`path.join`), `ExpoGo` (platform settings, URL resolution, the download).

## Model

| member | source | states |
|---|---|---|
| Registry.DefaultRegistered | packages/@expo/cli/bin/cli.ts:14-37 | the default command `start` is a registry key, and its loader is the `start` loader |
| Registry.WithoutMembers | packages/@expo/cli/bin/cli.ts:72-86 | an entry is in the rest of a destructuring exactly when it is in the object and was not picked out by name |
| Registry.WithoutSingle | packages/@expo/cli/bin/cli.ts:72-86 | when every entry but one is picked out by name, the rest holds exactly that one entry |
| Registry.Without | packages/@expo/cli/bin/cli.ts:72-86 | the rest of a destructuring, never longer than the object; `WithoutMembers` and `WithoutSingle` state which entries it keeps |
| Registry.Others | packages/@expo/cli/bin/cli.ts:72-86 | the `...others` rest of the usage destructuring; `OthersIsExportWeb` states that it is exactly `export:web` |
| Registry.UsageGroups | packages/@expo/cli/bin/cli.ts:93-96 | the four usage lines; `MainUsageLine` states the first and `UsageListsEveryCommandOnce` that together they list every registered command exactly once |
| Cli.ExitCode | packages/@expo/cli/bin/cli.ts:57-184 | version and usage exit 0; migration and deprecation notices exit 1, and so does a non-loader, through the uncaught TypeError; a dispatch leaves the exit code to the command |
| Cli.Decide | packages/@expo/cli/bin/cli.ts:57-184 | the decision never calls a name the registry lacks: a dispatch always names a registry key together with that key's own loader |
| Cli.DecideWith | packages/@expo/cli/bin/cli.ts:57-184 | the shared decision, given whether the first positional is a subcommand: version, then help, migration, deprecation and dispatch in the source's order. `Decide`'s contract and the lemmas on `Decide` state each branch; `SubcommandDispatchesItself` states that `--help` with a subcommand reaches dispatch |
| Cli.IsSubcommand | packages/@expo/cli/bin/cli.ts:68 | the corrected subcommand test, an exact registry lookup; `SubcommandIffRegistered` states what it decides |
| Cli.IsSubcommandAsWritten | packages/@expo/cli/bin/cli.ts:68 | the truthiness test as written, which also accepts inherited property names; `AsWrittenAgreesOffPrototype` and `ConstructorIsNotALoader` state where it differs |
| Cli.DecideAsWritten | packages/@expo/cli/bin/cli.ts:57-184 | the decision with the test as written; `AsWrittenAgreesOffPrototype` and `ConstructorIsNotALoader` relate it to `Decide` |
| Cli.EveryLoaderRegistered | packages/@expo/cli/bin/cli.ts:18-37 | every loader is registered under some name |
| Cli.OthersIsExportWeb | packages/@expo/cli/bin/cli.ts:72-86 | the rest of the usage destructuring (`others`) is exactly `export:web` |
| Cli.MainUsageLine | packages/@expo/cli/bin/cli.ts:93 | the first usage line lists `start`, `export`, `export:web` |
| Cli.ReadLines | packages/@expo/cli/bin/cli.ts:93-96 | the four usage lines, read in order, list the 13 commands in the printed order |
| Cli.ListedOnce | packages/@expo/cli/bin/cli.ts:93-96 | the printed order names every loader, and none twice |
| Cli.UsageListsEveryCommandOnce | packages/@expo/cli/bin/cli.ts:72-96 | the usage listing names every registered command exactly once |
| Cli.VersionWins | packages/@expo/cli/bin/cli.ts:57-61 | with `--version`, the outcome is the version and exit 0, whatever the other flags and positionals |
| Cli.SubcommandIffRegistered | packages/@expo/cli/bin/cli.ts:68-173 | without flags, the first positional is dispatched as the command, with the positionals after it as its arguments, exactly when it is one of the 13 registry keys (the exact lookup line 68 evidently intends, see Findings) |
| Cli.HelpWithoutSubcommandShowsUsage | packages/@expo/cli/bin/cli.ts:71-106 | `--help` without a subcommand gives the usage listing and exit 0, before any migration or deprecation check |
| Cli.MainNamesNotLegacy | packages/@expo/cli/bin/cli.ts:111-163 | `start`, `export` and `export:web` are neither legacy nor deprecated names |
| Cli.RunNamesNotLegacy | packages/@expo/cli/bin/cli.ts:111-163 | `run:ios`, `run:android` and `prebuild` are neither legacy nor deprecated names |
| Cli.AuxiliaryNamesNotLegacy | packages/@expo/cli/bin/cli.ts:111-163 | `install`, `customize` and `config` are neither legacy nor deprecated names |
| Cli.AuthNamesNotLegacy | packages/@expo/cli/bin/cli.ts:111-163 | `login`, `logout`, `whoami` and `register` are neither legacy nor deprecated names |
| Cli.DeprecatedNotMigrated | packages/@expo/cli/bin/cli.ts:111-163 | `send` and `client:ios` are not legacy names |
| Cli.TablesDisjoint | packages/@expo/cli/bin/cli.ts:18-163 | no legacy or deprecated name is a registry key, and no deprecated name is a legacy name |
| Cli.MigratedNameExits | packages/@expo/cli/bin/cli.ts:153-162 | a legacy first positional gives its replacement and exit 1, whatever follows it |
| Cli.DeprecatedNameExits | packages/@expo/cli/bin/cli.ts:163-169 | `send` or `client:ios` as first positional gives a deprecation notice and exit 1 |
| Cli.UnrecognisedRunsStart | packages/@expo/cli/bin/cli.ts:172-184 | any other first positional, or none, dispatches `start` with all the positionals |
| Cli.NoArgumentsRunsStart | packages/@expo/cli/bin/cli.ts:172-184 | `npx expo` alone dispatches `start` with no arguments |
| Cli.SubcommandDispatchesItself | packages/@expo/cli/bin/cli.ts:71-178 | a subcommand dispatches its own loader with the positionals after it, with or without `--help`; with `--help` the flag is appended to those arguments instead of printing the usage listing |
| Cli.HelpIsForwarded | packages/@expo/cli/bin/cli.ts:176-178 | when `--help` reaches dispatch, the command and loader are unchanged and the argument list gains exactly `--help` at its end |
| Cli.NonInteractiveIgnored | packages/@expo/cli/bin/cli.ts:63-65 | `--non-interactive` never changes the outcome |
| Cli.AsWrittenAgreesOffPrototype | packages/@expo/cli/bin/cli.ts:68 | away from the names every object inherits, the truthiness test on the registry decides as the exact lookup does |
| Cli.ConstructorNotRegistered | packages/@expo/cli/bin/cli.ts:18-37 | `constructor` is not a registry key |
| Cli.ConstructorNotLegacy | packages/@expo/cli/bin/cli.ts:111-163 | `constructor` is neither a legacy nor a deprecated name |
| Cli.ConstructorIsNotALoader | packages/@expo/cli/bin/cli.ts:68 | `npx expo constructor` is taken for a subcommand as written and then has no loader to call; with an exact lookup it runs `start` with `constructor` as its argument |
| Paths.TrimTrailingSlashes | packages/@expo/cli/src/utils/downloadExpoGoAsync.ts:73 | the result is a prefix of the path without a trailing `/`, and everything cut off was `/` |
| Paths.AfterLastSlash | packages/@expo/cli/src/utils/downloadExpoGoAsync.ts:73 | the last segment holds no `/` |
| Paths.AfterLastSlashIsSuffix | packages/@expo/cli/src/utils/downloadExpoGoAsync.ts:73 | the last segment is a suffix of the path, preceded by `/` unless it is the whole path |
| Paths.BaseName | packages/@expo/cli/src/utils/downloadExpoGoAsync.ts:73 | the base name holds no `/` |
| Paths.LastDot | packages/@expo/cli/src/utils/downloadExpoGoAsync.ts:73 | the position found holds a `.` and no `.` follows it; no position means there is no `.` |
| Paths.ParseName | packages/@expo/cli/src/utils/downloadExpoGoAsync.ts:73 | the name is a prefix of the base name and holds no `/`; with the lemmas below it is Node's POSIX `path.parse(...).name`, `/..` included |
| Paths.AfterLastSlashOfSegment | packages/@expo/cli/src/utils/downloadExpoGoAsync.ts:73 | the last segment of `prefix/base` is `base` when `base` holds no `/` |
| Paths.LastDotBeforeExtension | packages/@expo/cli/src/utils/downloadExpoGoAsync.ts:73 | in `name.ext` with no `.` in `ext`, the last `.` is the one after `name` |
| Paths.FileStem | packages/@expo/cli/src/utils/downloadExpoGoAsync.ts:73 | the stem of `prefix/name.ext` is `name` (`file-v1.app` gives `file-v1`) |
| Paths.DotFileKeepsName | packages/@expo/cli/src/utils/downloadExpoGoAsync.ts:73 | a base name whose only `.` opens it keeps its whole name |
| Paths.NoExtensionKeepsName | packages/@expo/cli/src/utils/downloadExpoGoAsync.ts:73 | a non-empty last segment without `.` is its own name |
| Paths.AfterLastSlashWhole | packages/@expo/cli/src/utils/downloadExpoGoAsync.ts:73 | a path without `/` is its own last segment |
| Paths.BareBaseName | packages/@expo/cli/src/utils/downloadExpoGoAsync.ts:73 | a path without `/` is its own base name |
| Paths.BareFileStem | packages/@expo/cli/src/utils/downloadExpoGoAsync.ts:73 | a bare `name.ext` with one extension has the name `name` |
| Paths.BareNoExtension | packages/@expo/cli/src/utils/downloadExpoGoAsync.ts:73 | a path without `/` and without `.` is its own name |
| Paths.TrailingSlashIgnored | packages/@expo/cli/src/utils/downloadExpoGoAsync.ts:73 | a trailing `/` does not change the base name |
| Paths.ParentKeepsName | packages/@expo/cli/src/utils/downloadExpoGoAsync.ts:73 | a last segment `..` below a non-empty prefix has no extension and keeps the name `..` |
| Paths.RootParentName | packages/@expo/cli/src/utils/downloadExpoGoAsync.ts:73 | `..` directly after the root, with any number of trailing `/`, has the name `.`, as Node's `path.parse` gives it |
| Paths.TrimmedRootParent | packages/@expo/cli/src/utils/downloadExpoGoAsync.ts:73 | every trailing `/` after `/..` is trimmed |
| Paths.Join | packages/@expo/cli/src/utils/downloadExpoGoAsync.ts:22-29 | the three segments joined by `/`; `OutputPathShape` states the cache paths built with it |
| ExpoGo.Settings | packages/@expo/cli/src/utils/downloadExpoGoAsync.ts:12-32 | the platform table; `CatalogUrlPerPlatform`, `OutputPathShape` and `ExtractOnlyOnIos` state its catalog key, cache path and extract flag |
| ExpoGo.ClientUrl | packages/@expo/cli/src/utils/downloadExpoGoAsync.ts:63-70 | the catalog entry's URL under the platform's key; `CatalogUrlPerPlatform` states which one each platform takes |
| ExpoGo.Truthy | packages/@expo/cli/src/utils/downloadExpoGoAsync.ts:55-56 | JavaScript truthiness of an optional string: present and non-empty; `EmptyIsAbsent` states that an empty string counts as absent, and `GivenUrlIgnoresCatalog` and `MissingSdkVersionFails` state the branches it selects |
| ExpoGo.NeedsCatalog | packages/@expo/cli/src/utils/downloadExpoGoAsync.ts:55-61 | when the version catalog is requested: no URL but an SDK version; `DownloadExpoGo`'s `catalogRequested` ensures, `GivenUrlIgnoresCatalog` and `MissingSdkVersionFails` state it |
| ExpoGo.FilePath | packages/@expo/cli/src/utils/downloadExpoGoAsync.ts:22-29 | the cached file of a stem; `OutputPathShape` states it on each platform |
| ExpoGo.ResolveUrl | packages/@expo/cli/src/utils/downloadExpoGoAsync.ts:55-71 | the URL to download or the error; `GivenUrlIgnoresCatalog`, `MissingSdkVersionFails`, `CatalogFailurePropagates`, `UnknownSdkVersionFails` and `CatalogUrlPerPlatform` state each branch, and `EmptyIsAbsent` the truthiness tests |
| ExpoGo.RequestFor | packages/@expo/cli/src/utils/downloadExpoGoAsync.ts:73-86 | the request for a resolved URL; `ExtractOnlyOnIos`, `OutputPathShape` and `IosExample` state its fields |
| ExpoGo.Acquire | packages/@expo/cli/src/utils/downloadExpoGoAsync.ts:35-97 | the specification `DownloadExpoGo` is proved against; `DownloadOutcome` and the resolution lemmas state its results |
| ExpoGo.ProgressBar.constructor | packages/@expo/cli/src/utils/downloadExpoGoAsync.ts:47-53 | a new bar has not been terminated |
| ExpoGo.ProgressBar.Terminate | packages/@expo/cli/src/utils/downloadExpoGoAsync.ts:95 | terminating counts one more `terminate()` call |
| ExpoGo.DownloadExpoGo | packages/@expo/cli/src/utils/downloadExpoGoAsync.ts:35-97 | returns what `Acquire` specifies and requests the catalog only when no URL but an SDK version is given; a given URL is the one requested. It returns the bar it created, which exists exactly when one could be created. On a configuration error nothing is downloaded and the bar is never terminated. Once the download phase is entered, the request is the one `RequestFor` builds and the bar is terminated exactly once, on success and on failure alike |
| ExpoGo.GivenUrlIgnoresCatalog | packages/@expo/cli/src/utils/downloadExpoGoAsync.ts:55-71 | a given URL is the URL resolved for download; neither the SDK version nor the catalog changes the outcome, and the catalog is not requested |
| ExpoGo.MissingSdkVersionFails | packages/@expo/cli/src/utils/downloadExpoGoAsync.ts:55-60 | with neither URL nor SDK version the result is the "unable to determine" error, and the catalog is not requested |
| ExpoGo.UnknownSdkVersionFails | packages/@expo/cli/src/utils/downloadExpoGoAsync.ts:61-68 | without a truthy URL, an SDK version missing from the catalog gives the "unable to find a version" error |
| ExpoGo.CatalogFailurePropagates | packages/@expo/cli/src/utils/downloadExpoGoAsync.ts:61 | when the catalog is needed and its request throws, that error is the result, unchanged, and nothing is downloaded |
| ExpoGo.EmptyIsAbsent | packages/@expo/cli/src/utils/downloadExpoGoAsync.ts:55-56 | an empty `url` or `sdkVersion` resolves, and decides the catalog request, exactly as an absent one |
| ExpoGo.CatalogUrlPerPlatform | packages/@expo/cli/src/utils/downloadExpoGoAsync.ts:63-70 | from the catalog, iOS takes the entry's `iosClientUrl` and Android its `androidClientUrl` |
| ExpoGo.OutputPathShape | packages/@expo/cli/src/utils/downloadExpoGoAsync.ts:22-29 | for `prefix/name.ext` the output path is `home/ios-simulator-app-cache/name.app` on iOS and `home/android-apk-cache/name.apk` on Android |
| ExpoGo.ExtractOnlyOnIos | packages/@expo/cli/src/utils/downloadExpoGoAsync.ts:81-86 | the download is extracted exactly on iOS, uses the `expo-go` cache directory and fetches the resolved URL |
| ExpoGo.DownloadOutcome | packages/@expo/cli/src/utils/downloadExpoGoAsync.ts:81-93 | a completed download returns exactly the output path; a failed one returns the collaborator's error unchanged |
| ExpoGo.IosExample | packages/@expo/cli/src/utils/downloadExpoGoAsync.ts:20-25 | `https://host/file-v1.app` on iOS is fetched, extracted and cached as `<home>/ios-simulator-app-cache/file-v1.app` |

## Left out

- Argument parsing by the `arg` library (aliases, permissive unknown flags): the model starts from the parsed record (cli.ts:39-55).
- Console output and its `chalk` formatting, the `--non-interactive` warning text, and the `EXPO_DEBUG`/`debug` setup (cli.ts:8-12, 63-65): text and environment side effects. Outcomes carry the data that is printed, except the version string.
- The version string that `--version` prints (`process.env.__EXPO_VERSION`, cli.ts:59) is fixed at build time: `ShowVersion` carries no version.
- The SIGINT/SIGTERM exit hooks (cli.ts:181-182): process lifecycle.
- The dynamic `import()` of each command and the call `exec(commandArgs)`: loaders are opaque `CommandId`s, and a dispatch outcome names the loader and its arguments.
- `commandArgs.push('--help')` appends in place to `args._.slice(1)`, a copy made at cli.ts:173 (the push is reached only with a subcommand). The model states the appended list as a new sequence; no other array is affected.
- `getVersionsAsync`, `downloadAppAsync`, `profile` and `getExpoHomeDirectory`: network, file system and cache code that is not part of this model. They appear as the parameters `catalog`, `transfer` and `home`.
- What the catalog service and the download collaborator do is not modelled, only their answers: success, or a thrown value passed on unchanged.
- The progress bar's rendering, its options and `bar.tick` on progress (downloadExpoGoAsync.ts:47-53, 87-91): terminal output. Only the count of `terminate()` calls is kept. `createProgressBar` returning nothing is the parameter `barAvailable`.
- The `debug` log lines in downloadExpoGoAsync.ts (69, 77-80): diagnostic output.
- The error message texts: the two configuration errors are the constructors `NoVersionToInstall` and `NoVersionForSdk`, which carry the values the messages interpolate.
- `path.join` normalisation (collapsing `..`, `.` and repeated separators): `Paths.Join` concatenates the three segments with `/`.
- `path.parse` is modelled for POSIX separators only.
- Platforms other than `ios` and `android`: the settings record is typed `Record<string, ...>`, so any string is an accepted `platform`, and for any other string the destructuring at downloadExpoGoAsync.ts:45 throws a TypeError before the bar is created. `Platform` has only the two entries of the record, so that TypeError is not modelled.
- The catalog lookup is an exact key lookup. An SDK version such as `constructor` would reach an inherited property of the parsed catalog object; the model does not represent such values.

## Findings

| source | as written | input that shows it | evidently intended | confidence | as-written member | corrected member |
|---|---|---|---|---|---|---|
| packages/@expo/cli/bin/cli.ts:68 | `Boolean(commands[args._[0]])` is also truthy for the names every object inherits (`constructor`, `toString`, `valueOf`, ...). Such a name is taken for a subcommand, and `commands[command]()` then yields no promise, so `.then` throws a TypeError. (The `in migrationMap` test at line 154 would accept the same inherited names, but it is never reached for them: line 110 guards it with `!isSubcommand`, and every inherited name already counts as a subcommand at line 68.) | `npx expo constructor` | only the 13 registry keys are subcommands; `constructor` runs `start` with `constructor` as its argument, like any other unrecognised name | medium, not executed | Cli.ConstructorIsNotALoader | Cli.Decide |

=== FILE: cli.dfy ===
/**
 * The top-level `expo` command dispatch: the decision that takes the parsed
 * top-level flags and positionals to one of five outcomes (print the version,
 * print usage, a migration notice, a deprecation notice, or a dispatch to a
 * registered command with its argument list), and its properties.
 */
module Cli {
  import opened Wrappers
  import opened Registry

  /** The top-level arguments as the permissive parser leaves them. */
  datatype Args = Args(version: bool, help: bool, nonInteractive: bool, positionals: seq<string>)

  /** What the entry point does with the parsed arguments. */
  datatype Outcome =
    | ShowVersion
      /** Print the grouped listing `UsageGroups()`. */
    | ShowUsage
    | MigrationNotice(subcommand: string, replacement: string)
    | DeprecationNotice(subcommand: string)
    | Dispatch(command: string, loader: CommandId, commandArgs: seq<string>)
      /** `commands[command]` is not a loader, so calling it and chaining `.then` throws a TypeError. */
    | NotALoader(command: string)

  /**
   * The process exit code an outcome fixes, or None when the dispatched
   * command decides it. The TypeError of a non-loader is uncaught, and Node
   * exits with code 1 on an uncaught exception.
   */
  function ExitCode(o: Outcome): (code: Option<int>)
    ensures code == Some(0) <==> o.ShowVersion? || o.ShowUsage?
    ensures code == Some(1) <==> o.MigrationNotice? || o.DeprecationNotice? || o.NotALoader?
    ensures code == None <==> o.Dispatch?
  {
    match o
    case ShowVersion => Some(0)
    case ShowUsage => Some(0)
    case MigrationNotice(_, _) => Some(1)
    case DeprecationNotice(_) => Some(1)
    case Dispatch(_, _, _) => None
    case NotALoader(_) => Some(1)
  }

  /** Every loader is registered, under its own name. */
  lemma EveryLoaderRegistered(id: CommandId)
    ensures id in Commands.Values
  {
    var name := match id
      case RunIos => "run:ios"
      case RunAndroid => "run:android"
      case Start => "start"
      case Prebuild => "prebuild"
      case Config => "config"
      case Export => "export"
      case ExportWeb => "export:web"
      case Install => "install"
      case Customize => "customize"
      case Login => "login"
      case Logout => "logout"
      case Register => "register"
      case Whoami => "whoami";
    assert Commands[name] == id;
  }

  /** `others` reduces to `export:web`: it is the only registry entry the listing does not pick out. */
  lemma OthersIsExportWeb()
    ensures Others() == [ExportWeb]
  {
    var d := DeclarationOrder;
    forall k | 0 <= k < |d| && k != 6
      ensures d[k] in Destructured
    {
    }
    WithoutSingle(d, Destructured, 6);
  }

  /** The main line of the usage listing: `start`, `export`, then `others`. */
  lemma MainUsageLine()
    ensures UsageGroups()[0] == [Start, Export, ExportWeb]
  {
    UsageHead();
    OthersIsExportWeb();
    PrependTwo(Start, Export, Others(), ExportWeb);
  }

  /** `[a, b]` followed by the one-entry list `[c]` is `[a, b, c]`. */
  lemma PrependTwo(a: CommandId, b: CommandId, o: seq<CommandId>, c: CommandId)
    requires o == [c]
    ensures [a, b] + o == [a, b, c]
  {
  }

  /** The entries of the usage listing, line after line. */
  const Listed: seq<CommandId> := [Start, Export, ExportWeb, RunIos, RunAndroid, Prebuild,
                                   Install, Customize, Config, Login, Logout, Whoami, Register]

  /** Four lines with these entries read as `Listed`. */
  lemma ReadLines(g: seq<seq<CommandId>>)
    requires |g| == 4 && g[0] == [Start, Export, ExportWeb] && g[1] == [RunIos, RunAndroid, Prebuild]
    requires g[2] == [Install, Customize, Config] && g[3] == [Login, Logout, Whoami, Register]
    ensures Flatten(g) == Listed
  {
    FlattenFour(g);
    assert [Start, Export, ExportWeb] + [RunIos, RunAndroid, Prebuild] + [Install, Customize, Config]
      + [Login, Logout, Whoami, Register] == Listed;
  }

  /** `Listed` holds every loader, each once. */
  lemma ListedOnce()
    ensures Distinct(Listed)
    ensures forall id :: id in Listed
  {
    var l := Listed;
    forall id ensures id in l {
      match id
      case Start => assert l[0] == id;
      case Export => assert l[1] == id;
      case ExportWeb => assert l[2] == id;
      case RunIos => assert l[3] == id;
      case RunAndroid => assert l[4] == id;
      case Prebuild => assert l[5] == id;
      case Install => assert l[6] == id;
      case Customize => assert l[7] == id;
      case Config => assert l[8] == id;
      case Login => assert l[9] == id;
      case Logout => assert l[10] == id;
      case Whoami => assert l[11] == id;
      case Register => assert l[12] == id;
    }
  }

  /** The usage listing names every registered command, and each exactly once. */
  lemma UsageListsEveryCommandOnce()
    ensures forall id :: id in Flatten(UsageGroups()) && id in Commands.Values
    ensures Distinct(Flatten(UsageGroups()))
  {
    MainUsageLine();
    ReadLines(UsageGroups());
    ListedOnce();
    forall id ensures id in Commands.Values {
      EveryLoaderRegistered(id);
    }
  }

  /** The first positional argument, if there is one (`args._[0]`). */
  function FirstPositional(a: Args): Option<string> {
    if |a.positionals| > 0 then Some(a.positionals[0]) else None
  }

  /** `npx expo <subcommand>`: the first positional is a key of the registry (exact, case-sensitive). */
  predicate IsSubcommand(a: Args) {
    FirstPositional(a).Some? && FirstPositional(a).value in Commands
  }

  /**
   * The decision from the version and help flags and the positionals, given
   * whether the first positional was taken for a subcommand. Checks run in the
   * source's order: version, help, migration, deprecated, dispatch.
   */
  function DecideWith(version: bool, help: bool, positionals: seq<string>, isSubcommand: bool): (o: Outcome)
    requires isSubcommand ==> |positionals| > 0
  {
    if version then ShowVersion
    else if !isSubcommand && help then ShowUsage
    else if !isSubcommand && |positionals| > 0 && positionals[0] in MigrationMap then
      MigrationNotice(positionals[0], MigrationMap[positionals[0]])
    else if !isSubcommand && |positionals| > 0 && positionals[0] in Deprecated then
      DeprecationNotice(positionals[0])
    else
      var command := if isSubcommand then positionals[0] else DefaultCmd;
      var commandArgs := if isSubcommand then positionals[1..] else positionals;
      var forwarded := if help then commandArgs + ["--help"] else commandArgs;
      if command in Commands then Dispatch(command, Commands[command], forwarded)
      else NotALoader(command)
  }

  /** The entry point's decision, with subcommands recognised by exact registry lookup. */
  function Decide(a: Args): (o: Outcome)
    ensures !o.NotALoader?
    ensures o.Dispatch? ==> o.command in Commands && o.loader == Commands[o.command]
  {
    DefaultRegistered();
    DecideWith(a.version, a.help, a.positionals, IsSubcommand(a))
  }

  /** `--version` wins over every other flag and positional. */
  lemma VersionWins(a: Args)
    requires a.version
    ensures Decide(a) == ShowVersion && ExitCode(Decide(a)) == Some(0)
  {
  }

  /**
   * Without flags, the first positional is run as the command, with the
   * remaining positionals as its arguments, exactly when it is one of the
   * thirteen registry keys.
   */
  lemma SubcommandIffRegistered(a: Args)
    requires !a.version && !a.help && |a.positionals| > 0
    ensures (Decide(a).Dispatch? && Decide(a).command == a.positionals[0]
             && Decide(a).commandArgs == a.positionals[1..]) <==> a.positionals[0] in Commands
  {
    DefaultRegistered();
  }

  /** `--help` without a subcommand prints usage and exits 0; no migration or deprecation notice is produced. */
  lemma HelpWithoutSubcommandShowsUsage(a: Args)
    requires !a.version && a.help && !IsSubcommand(a)
    ensures Decide(a) == ShowUsage && ExitCode(Decide(a)) == Some(0)
  {
  }

  /** No name on the main usage line is a legacy or deprecated name. */
  lemma MainNamesNotLegacy()
    ensures forall n :: n in ["start", "export", "export:web"] ==> n !in MigrationMap && n !in Deprecated
  {
  }

  /** No name on the run usage line is a legacy or deprecated name. */
  lemma RunNamesNotLegacy()
    ensures forall n :: n in ["run:ios", "run:android", "prebuild"] ==> n !in MigrationMap && n !in Deprecated
  {
  }

  /** No name on the auxiliary usage line is a legacy or deprecated name. */
  lemma AuxiliaryNamesNotLegacy()
    ensures forall n :: n in ["install", "customize", "config"] ==> n !in MigrationMap && n !in Deprecated
  {
  }

  /** No name on the auth usage line is a legacy or deprecated name. */
  lemma AuthNamesNotLegacy()
    ensures forall n :: n in ["login", "logout", "whoami", "register"] ==> n !in MigrationMap && n !in Deprecated
  {
  }

  /** The deprecated names are not legacy names. */
  lemma DeprecatedNotMigrated()
    ensures forall n :: n in Deprecated ==> n !in MigrationMap
  {
  }

  /** No legacy name, and no deprecated name, is a registered command; no deprecated name is a legacy name. */
  lemma TablesDisjoint()
    ensures forall n :: n in MigrationMap ==> n !in Commands
    ensures forall n :: n in Deprecated ==> n !in Commands && n !in MigrationMap
  {
    MainNamesNotLegacy();
    RunNamesNotLegacy();
    AuxiliaryNamesNotLegacy();
    AuthNamesNotLegacy();
    DeprecatedNotMigrated();
    forall n | n in Commands ensures n !in MigrationMap && n !in Deprecated {
      assert n in ["start", "export", "export:web"] || n in ["run:ios", "run:android", "prebuild"]
        || n in ["install", "customize", "config"] || n in ["login", "logout", "whoami", "register"];
    }
  }

  /** A legacy name exits 1 with its replacement, whatever follows it. */
  lemma MigratedNameExits(name: string, rest: seq<string>, nonInteractive: bool)
    requires name in MigrationMap
    ensures Decide(Args(false, false, nonInteractive, [name] + rest)) == MigrationNotice(name, MigrationMap[name])
  {
    TablesDisjoint();
  }

  /** `send` and `client:ios` exit 1 with a deprecation notice, whatever follows them. */
  lemma DeprecatedNameExits(name: string, rest: seq<string>, nonInteractive: bool)
    requires name in Deprecated
    ensures Decide(Args(false, false, nonInteractive, [name] + rest)) == DeprecationNotice(name)
  {
    TablesDisjoint();
  }

  /** Any other first positional, or none, runs `start` with all the positionals. */
  lemma UnrecognisedRunsStart(a: Args)
    requires !a.version && !a.help
    requires FirstPositional(a).Some? ==>
               FirstPositional(a).value !in Commands && FirstPositional(a).value !in MigrationMap
               && FirstPositional(a).value !in Deprecated
    ensures Decide(a) == Dispatch(DefaultCmd, Start, a.positionals)
  {
    DefaultRegistered();
  }

  /** `npx expo` alone runs `start` with no arguments. */
  lemma NoArgumentsRunsStart(nonInteractive: bool)
    ensures Decide(Args(false, false, nonInteractive, [])) == Dispatch("start", Start, [])
  {
    DefaultRegistered();
  }

  /**
   * A registered subcommand runs its own loader with the positionals after it,
   * `--help` included: with a subcommand the flag is not answered by the usage
   * listing but appended to the subcommand's arguments.
   */
  lemma SubcommandDispatchesItself(a: Args)
    requires !a.version && IsSubcommand(a)
    ensures Decide(a) == Dispatch(a.positionals[0], Commands[a.positionals[0]],
                                  a.positionals[1..] + (if a.help then ["--help"] else []))
  {
  }

  /** When `--help` reaches dispatch, it is appended to the same argument list and nothing else changes. */
  lemma HelpIsForwarded(a: Args)
    requires a.help && Decide(a).Dispatch?
    ensures Decide(a.(help := false)).Dispatch?
    ensures Decide(a).command == Decide(a.(help := false)).command
    ensures Decide(a).loader == Decide(a.(help := false)).loader
    ensures Decide(a).commandArgs == Decide(a.(help := false)).commandArgs + ["--help"]
  {
  }

  /** `--non-interactive` never changes the outcome. */
  lemma NonInteractiveIgnored(a: Args, b: bool)
    ensures Decide(a.(nonInteractive := b)) == Decide(a)
  {
  }

  /** The names every plain JavaScript object answers with a truthy value through its prototype. */
  const ObjectPrototypeNames: set<string> := {
    "constructor", "__proto__", "__defineGetter__", "__defineSetter__", "__lookupGetter__",
    "__lookupSetter__", "hasOwnProperty", "isPrototypeOf", "propertyIsEnumerable",
    "toString", "toLocaleString", "valueOf"
  }

  /** `Boolean(commands[args._[0]])` as written: inherited properties of the object literal are truthy too. */
  predicate IsSubcommandAsWritten(a: Args) {
    FirstPositional(a).Some?
      && (FirstPositional(a).value in Commands || FirstPositional(a).value in ObjectPrototypeNames)
  }

  /** The decision as written, with the truthiness test on the registry object. */
  function DecideAsWritten(a: Args): (o: Outcome) {
    DecideWith(a.version, a.help, a.positionals, IsSubcommandAsWritten(a))
  }

  /** Away from the inherited property names, the decision as written and the corrected one agree. */
  lemma AsWrittenAgreesOffPrototype(a: Args)
    requires FirstPositional(a).Some? ==> FirstPositional(a).value !in ObjectPrototypeNames
    ensures DecideAsWritten(a) == Decide(a)
  {
  }

  /** `constructor` is not a registry key. */
  lemma ConstructorNotRegistered()
    ensures "constructor" !in Commands
  {
  }

  /** `constructor` is neither a legacy name nor a deprecated name. */
  lemma ConstructorNotLegacy()
    ensures "constructor" !in MigrationMap && "constructor" !in Deprecated
  {
  }

  /** `npx expo constructor` is taken for a subcommand, and dispatch then has no loader to call. */
  lemma ConstructorIsNotALoader()
    ensures DecideAsWritten(Args(false, false, false, ["constructor"])) == NotALoader("constructor")
    ensures ExitCode(DecideAsWritten(Args(false, false, false, ["constructor"]))) == Some(1)
    ensures Decide(Args(false, false, false, ["constructor"])) == Dispatch("start", Start, ["constructor"])
  {
    var a := Args(false, false, false, ["constructor"]);
    ConstructorNotRegistered();
    ConstructorNotLegacy();
    DefaultRegistered();
    assert "constructor" in ObjectPrototypeNames;
    assert IsSubcommandAsWritten(a) && !IsSubcommand(a);
  }
}

=== FILE: expo_go.dfy ===
/**
 * Acquiring the Expo Go app for a simulator or emulator: choosing the download
 * URL (the one given, or the SDK version's entry in the version catalog),
 * deriving the cached file's path and the extract flag from the platform, and
 * downloading while a progress bar is shown and then terminated.
 */
module ExpoGo {
  import opened Wrappers
  import opened Paths

  /** The platforms Expo Go is installed on. */
  datatype Platform = Ios | Android

  /** The key of a catalog entry that holds a platform's client URL. */
  datatype VersionsKey = IosClientUrl | AndroidClientUrl

  /** A catalog entry for one SDK version; either URL may be absent. */
  datatype SDKVersion = SDKVersion(iosClientUrl: Option<string>, androidClientUrl: Option<string>)

  /** What a collaborator threw, carried unchanged to the caller. */
  datatype Thrown = Thrown(description: string)

  /** The answer of the version catalog service: the entries by SDK version, or what it threw. */
  datatype CatalogFetch = Fetched(sdkVersions: map<string, SDKVersion>) | FetchFailed(cause: Thrown)

  /** The outcome of the download collaborator. */
  datatype TransferResult = Completed | TransferFailed(cause: Thrown)

  /** Why acquiring Expo Go failed. */
  datatype AcquireError =
    | NoVersionToInstall(platform: Platform)
    | NoVersionForSdk(sdkVersion: string, platform: Platform)
    | UrlNotAString
    | Propagated(cause: Thrown)

  /** The per-platform settings: catalog key, cache directory, file extension, extract flag. */
  datatype PlatformSettings = PlatformSettings(
    versionsKey: VersionsKey,
    cacheDirectory: string,
    extension: string,
    shouldExtractResults: bool)

  /** What is handed to the download collaborator. */
  datatype DownloadRequest = DownloadRequest(url: string, cacheDirectory: string, outputPath: string, extract: bool)

  /** The directory, under the Expo home directory, holding the encrypted download cache. */
  const DownloadCacheDirectory: string := "expo-go"

  /** The settings of each platform. */
  function Settings(platform: Platform): (s: PlatformSettings) {
    match platform
    case Ios => PlatformSettings(IosClientUrl, "ios-simulator-app-cache", ".app", true)
    case Android => PlatformSettings(AndroidClientUrl, "android-apk-cache", ".apk", false)
  }

  /** The field of a catalog entry named by `key`. */
  function ClientUrl(version: SDKVersion, key: VersionsKey): (u: Option<string>) {
    match key
    case IosClientUrl => version.iosClientUrl
    case AndroidClientUrl => version.androidClientUrl
  }

  /** An optional string is truthy when it is present and not empty. */
  predicate Truthy(s: Option<string>) {
    s.Some? && s.value != ""
  }

  /** The path of the cached app file for a file stem, under the home directory. */
  function FilePath(platform: Platform, home: string, filename: string): (path: string) {
    var s := Settings(platform);
    Join(home, s.cacheDirectory, filename + s.extension)
  }

  /** Whether the version catalog is consulted: only when no URL is given but an SDK version is. */
  predicate NeedsCatalog(url: Option<string>, sdkVersion: Option<string>) {
    !Truthy(url) && Truthy(sdkVersion)
  }

  /** The URL to download, or why there is none. */
  function ResolveUrl(platform: Platform, url: Option<string>, sdkVersion: Option<string>, catalog: CatalogFetch)
    : (r: Result<string, AcquireError>)
  {
    if Truthy(url) then Success(url.value)
    else if !Truthy(sdkVersion) then Failure(NoVersionToInstall(platform))
    else match catalog
      case FetchFailed(e) => Failure(Propagated(e))
      case Fetched(versions) =>
        if sdkVersion.value !in versions then Failure(NoVersionForSdk(sdkVersion.value, platform))
        else match ClientUrl(versions[sdkVersion.value], Settings(platform).versionsKey)
          case None => Failure(UrlNotAString)
          case Some(u) => Success(u)
  }

  /** The request made to the download collaborator for a resolved URL. */
  function RequestFor(platform: Platform, home: string, url: string): (q: DownloadRequest) {
    DownloadRequest(url, DownloadCacheDirectory, FilePath(platform, home, ParseName(url)),
                    Settings(platform).shouldExtractResults)
  }

  /** What acquiring Expo Go yields: the output path, or the failure. */
  function Acquire(platform: Platform, url: Option<string>, sdkVersion: Option<string>, catalog: CatalogFetch,
                   home: string, transfer: DownloadRequest -> TransferResult): (r: Result<string, AcquireError>)
  {
    match ResolveUrl(platform, url, sdkVersion, catalog)
    case Failure(f) => Failure(f)
    case Success(u) =>
      var q := RequestFor(platform, home, u);
      match transfer(q)
      case Completed => Success(q.outputPath)
      case TransferFailed(e) => Failure(Propagated(e))
  }

  /** The terminal progress bar; only how often it is terminated is kept. */
  class ProgressBar {
    var terminateCalls: nat

    constructor ()
      ensures terminateCalls == 0
    {
      terminateCalls := 0;
    }

    /** Removes the bar from the terminal. */
    method Terminate()
      modifies this
      ensures terminateCalls == old(terminateCalls) + 1
    {
      terminateCalls := terminateCalls + 1;
    }
  }

  /**
   * Downloads Expo Go for `platform`. `barAvailable` says whether a progress
   * bar could be created, `catalog` is what the version catalog service would
   * answer and `transfer` is the download collaborator. Besides the result, it
   * reports whether the catalog was requested, the request made of the
   * download collaborator (if any), and the progress bar it created (if any).
   * The bar is terminated once when the download was attempted, whatever its
   * outcome, and never when no URL could be resolved.
   */
  method DownloadExpoGo(platform: Platform, url: Option<string>, sdkVersion: Option<string>, catalog: CatalogFetch,
                        home: string, barAvailable: bool, transfer: DownloadRequest -> TransferResult)
    returns (r: Result<string, AcquireError>, catalogRequested: bool, request: Option<DownloadRequest>, bar: ProgressBar?)
    ensures r == Acquire(platform, url, sdkVersion, catalog, home, transfer)
    ensures catalogRequested <==> NeedsCatalog(url, sdkVersion)
    ensures ResolveUrl(platform, url, sdkVersion, catalog).Failure? ==> request == None
    ensures ResolveUrl(platform, url, sdkVersion, catalog).Success? ==>
              request == Some(RequestFor(platform, home, ResolveUrl(platform, url, sdkVersion, catalog).value))
    ensures Truthy(url) ==> request.Some? && request.value.url == url.value
    ensures barAvailable <==> bar != null
    ensures bar != null ==>
              fresh(bar) && bar.terminateCalls == (if ResolveUrl(platform, url, sdkVersion, catalog).Success? then 1 else 0)
  {
    var settings := Settings(platform);
    bar := null;
    if barAvailable {
      bar := new ProgressBar();
    }
    catalogRequested, request := false, None;

    var u := url;
    if !Truthy(u) {
      if !Truthy(sdkVersion) {
        r := Failure(NoVersionToInstall(platform));
        return;
      }
      catalogRequested := true;
      match catalog {
        case FetchFailed(e) =>
          r := Failure(Propagated(e));
          return;
        case Fetched(versions) =>
          if sdkVersion.value !in versions {
            r := Failure(NoVersionForSdk(sdkVersion.value, platform));
            return;
          }
          u := ClientUrl(versions[sdkVersion.value], settings.versionsKey);
      }
    }
    if u.None? {
      r := Failure(UrlNotAString);
      return;
    }

    var filename := ParseName(u.value);
    // try
    var outputPath := FilePath(platform, home, filename);
    var q := DownloadRequest(u.value, DownloadCacheDirectory, outputPath, settings.shouldExtractResults);
    request := Some(q);
    match transfer(q) {
      case Completed => r := Success(outputPath);
      case TransferFailed(e) => r := Failure(Propagated(e));
    }
    // finally
    if bar != null {
      bar.Terminate();
    }
  }

  /** A given URL is the one downloaded: neither the SDK version nor the catalog matters. */
  lemma GivenUrlIgnoresCatalog(platform: Platform, url: Option<string>, sdk1: Option<string>, sdk2: Option<string>,
                               catalog1: CatalogFetch, catalog2: CatalogFetch, home: string,
                               transfer: DownloadRequest -> TransferResult)
    requires Truthy(url)
    ensures ResolveUrl(platform, url, sdk1, catalog1) == Success(url.value)
    ensures Acquire(platform, url, sdk1, catalog1, home, transfer) == Acquire(platform, url, sdk2, catalog2, home, transfer)
    ensures !NeedsCatalog(url, sdk1)
  {
  }

  /** Without a URL and without an SDK version there is nothing to install: an error, and no catalog request. */
  lemma MissingSdkVersionFails(platform: Platform, url: Option<string>, sdkVersion: Option<string>,
                               catalog: CatalogFetch, home: string, transfer: DownloadRequest -> TransferResult)
    requires !Truthy(url) && !Truthy(sdkVersion)
    ensures Acquire(platform, url, sdkVersion, catalog, home, transfer) == Failure(NoVersionToInstall(platform))
    ensures !NeedsCatalog(url, sdkVersion)
  {
  }

  /** An SDK version the catalog does not list is an error, and nothing is downloaded. */
  lemma UnknownSdkVersionFails(platform: Platform, url: Option<string>, sdkVersion: string,
                               versions: map<string, SDKVersion>, home: string,
                               transfer: DownloadRequest -> TransferResult)
    requires !Truthy(url) && sdkVersion != "" && sdkVersion !in versions
    ensures Acquire(platform, url, Some(sdkVersion), Fetched(versions), home, transfer)
            == Failure(NoVersionForSdk(sdkVersion, platform))
  {
  }

  /** When the catalog is needed and its request throws, that error is passed on unchanged and nothing is downloaded. */
  lemma CatalogFailurePropagates(platform: Platform, url: Option<string>, sdkVersion: Option<string>, e: Thrown,
                                 home: string, transfer: DownloadRequest -> TransferResult)
    requires NeedsCatalog(url, sdkVersion)
    ensures ResolveUrl(platform, url, sdkVersion, FetchFailed(e)) == Failure(Propagated(e))
    ensures Acquire(platform, url, sdkVersion, FetchFailed(e), home, transfer) == Failure(Propagated(e))
  {
  }

  /** An empty `url` or `sdkVersion` counts as absent, as JavaScript truthiness has it. */
  lemma EmptyIsAbsent(platform: Platform, url: Option<string>, sdkVersion: Option<string>, catalog: CatalogFetch)
    ensures ResolveUrl(platform, Some(""), sdkVersion, catalog) == ResolveUrl(platform, None, sdkVersion, catalog)
    ensures ResolveUrl(platform, url, Some(""), catalog) == ResolveUrl(platform, url, None, catalog)
    ensures NeedsCatalog(Some(""), sdkVersion) == NeedsCatalog(None, sdkVersion)
    ensures NeedsCatalog(url, Some("")) == NeedsCatalog(url, None)
  {
  }

  /** From the catalog, iOS downloads the entry's iOS client URL and Android its Android client URL. */
  lemma CatalogUrlPerPlatform(platform: Platform, sdkVersion: string, versions: map<string, SDKVersion>)
    requires sdkVersion != "" && sdkVersion in versions
    ensures var entry := versions[sdkVersion];
            var chosen := if platform == Ios then entry.iosClientUrl else entry.androidClientUrl;
            ResolveUrl(platform, None, Some(sdkVersion), Fetched(versions))
            == (if chosen.Some? then Success(chosen.value) else Failure(UrlNotAString))
  {
  }

  /**
   * The cached file of `prefix/name.ext` is `home/ios-simulator-app-cache/name.app`
   * on iOS and `home/android-apk-cache/name.apk` on Android.
   */
  lemma OutputPathShape(platform: Platform, home: string, prefix: string, name: string, ext: string)
    requires name != [] && '/' !in name
    requires '/' !in ext && '.' !in ext
    requires !(name == "." && ext == [])
    ensures RequestFor(platform, home, prefix + "/" + name + "." + ext).outputPath ==
            if platform == Ios then Join(home, "ios-simulator-app-cache", name + ".app")
            else Join(home, "android-apk-cache", name + ".apk")
  {
    FileStem(prefix, name, ext);
  }

  /** Only iOS downloads are extracted, and every download uses the `expo-go` cache directory. */
  lemma ExtractOnlyOnIos(platform: Platform, home: string, url: string)
    ensures RequestFor(platform, home, url).extract <==> platform == Ios
    ensures RequestFor(platform, home, url).cacheDirectory == "expo-go"
    ensures RequestFor(platform, home, url).url == url
  {
  }

  /** A completed download yields exactly the request's output path; a failed one its error, unchanged. */
  lemma DownloadOutcome(platform: Platform, url: Option<string>, sdkVersion: Option<string>, catalog: CatalogFetch,
                        home: string, transfer: DownloadRequest -> TransferResult)
    requires ResolveUrl(platform, url, sdkVersion, catalog).Success?
    ensures var q := RequestFor(platform, home, ResolveUrl(platform, url, sdkVersion, catalog).value);
            Acquire(platform, url, sdkVersion, catalog, home, transfer) ==
            (if transfer(q).Completed? then Success(q.outputPath) else Failure(Propagated(transfer(q).cause)))
  {
  }

  /**
   * Downloading `https://host/file-v1.app` for iOS into the home directory
   * `/home/u/.expo` fetches that URL, extracts it, and caches it as
   * `/home/u/.expo/ios-simulator-app-cache/file-v1.app`.
   */
  lemma IosExample()
    ensures RequestFor(Ios, "/home/u/.expo", "https://host/file-v1.app") ==
            DownloadRequest("https://host/file-v1.app", "expo-go",
                            Join("/home/u/.expo", "ios-simulator-app-cache", "file-v1.app"), true)
  {
    assert "file-v1" + ".app" == "file-v1.app";
    assert "https://host/file-v1.app" == "https://host" + "/" + "file-v1" + "." + "app";
    OutputPathShape(Ios, "/home/u/.expo", "https://host", "file-v1", "app");
  }
}

=== FILE: paths.dfy ===
/**
 * The two POSIX path operations the Expo Go download relies on: the `name`
 * field of `path.parse` (the last path segment without its extension), which
 * turns a download URL into the cache file stem, and `path.join` of three
 * segments.
 */
module Paths {
  import opened Wrappers

  /** `s` without its trailing `/` characters. */
  function TrimTrailingSlashes(s: string): (r: string)
    ensures r <= s
    ensures r == [] || r[|r| - 1] != '/'
    ensures forall i :: |r| <= i < |s| ==> s[i] == '/'
  {
    if s != [] && s[|s| - 1] == '/' then TrimTrailingSlashes(s[..|s| - 1]) else s
  }

  /** The part of `s` after its last `/`, or all of `s` when it has none. */
  function AfterLastSlash(s: string): (r: string)
    ensures '/' !in r
  {
    if s == [] then []
    else if s[|s| - 1] == '/' then []
    else AfterLastSlash(s[..|s| - 1]) + [s[|s| - 1]]
  }

  /**
   * `AfterLastSlash(s)` is the suffix of `s` that follows its last `/`: a
   * suffix of `s`, preceded by `/` unless it is all of `s`.
   */
  lemma {:induction false} AfterLastSlashIsSuffix(s: string)
    ensures var r := AfterLastSlash(s);
            |r| <= |s| && r == s[|s| - |r|..] && (|r| < |s| ==> s[|s| - |r| - 1] == '/')
  {
    if s != [] && s[|s| - 1] != '/' {
      var init := s[..|s| - 1];
      AfterLastSlashIsSuffix(init);
      var r' := AfterLastSlash(init);
      assert AfterLastSlash(s) == r' + [s[|s| - 1]];
      assert s[|s| - |r'| - 1..] == init[|init| - |r'|..] + [s[|s| - 1]];
      if |r'| < |init| {
        assert init[|init| - |r'| - 1] == s[|s| - |r'| - 2];
      }
    }
  }

  /** The `base` of `path.parse`: the last segment, trailing separators ignored. */
  function BaseName(p: string): (r: string)
    ensures '/' !in r
  {
    AfterLastSlash(TrimTrailingSlashes(p))
  }

  /** The position of the last `.` in `s`, if there is one. */
  function LastDot(s: string): (r: Option<nat>)
    ensures r.None? ==> '.' !in s
    ensures r.Some? ==> r.value < |s| && s[r.value] == '.' && '.' !in s[r.value + 1..]
  {
    if s == [] then None
    else if s[|s| - 1] == '.' then Some(|s| - 1)
    else LastDot(s[..|s| - 1])
  }

  /**
   * The `name` of `path.parse`: the base name without its extension. The
   * extension starts at the last `.`, except when that `.` opens the base name
   * (`.bashrc`) or the base name is `..`; then there is none. Node's test for
   * `..` compares against the start of the scanned part, which stays 0 when
   * `..` follows the root directly, so `/..` (trailing separators aside) has
   * the name `.` and the extension `.`.
   */
  function ParseName(p: string): (r: string)
    ensures r <= BaseName(p)
    ensures '/' !in r
  {
    var base := BaseName(p);
    match LastDot(base)
    case None => base
    case Some(i) =>
      if i == 0 || (base == ".." && TrimTrailingSlashes(p) != "/..") then base else base[..i]
  }

  /** `path.join` of three segments, joined by the separator. */
  function Join(a: string, b: string, c: string): (path: string) {
    a + "/" + b + "/" + c
  }

  /** The last segment of `prefix/base` is `base` when `base` holds no separator. */
  lemma {:induction false} AfterLastSlashOfSegment(prefix: string, base: string)
    requires '/' !in base
    ensures AfterLastSlash(prefix + "/" + base) == base
  {
    var s := prefix + "/" + base;
    if base == [] {
      assert s[|s| - 1] == '/';
    } else {
      var init := base[..|base| - 1];
      assert s[..|s| - 1] == prefix + "/" + init;
      assert s[|s| - 1] == base[|base| - 1];
      assert '/' !in init by {
        forall k | 0 <= k < |init| ensures init[k] != '/' {
          assert init[k] == base[k];
        }
      }
      AfterLastSlashOfSegment(prefix, init);
      assert init + [base[|base| - 1]] == base;
    }
  }

  /** In `name.ext` with no `.` in `ext`, the last `.` is the one before `ext`. */
  lemma {:induction false} LastDotBeforeExtension(name: string, ext: string)
    requires '.' !in ext
    ensures LastDot(name + "." + ext) == Some(|name|)
  {
    var s := name + "." + ext;
    if ext == [] {
      assert s[|s| - 1] == '.';
    } else {
      var init := ext[..|ext| - 1];
      assert s[..|s| - 1] == name + "." + init;
      assert s[|s| - 1] == ext[|ext| - 1];
      assert '.' !in init by {
        forall k | 0 <= k < |init| ensures init[k] != '.' {
          assert init[k] == ext[k];
        }
      }
      LastDotBeforeExtension(name, init);
    }
  }

  /** The base name of `prefix/base` is `base` when `base` is a non-empty segment. */
  lemma BaseOfSegment(prefix: string, base: string)
    requires base != [] && '/' !in base
    ensures BaseName(prefix + "/" + base) == base
  {
    var p := prefix + "/" + base;
    assert TrimTrailingSlashes(p) == p by {
      assert p[|p| - 1] == base[|base| - 1];
    }
    AfterLastSlashOfSegment(prefix, base);
  }

  /** `name.ext` holds a separator only where `name` or `ext` does. */
  lemma NoSeparatorInFileName(name: string, ext: string)
    requires '/' !in name && '/' !in ext
    ensures '/' !in name + "." + ext
  {
    var base := name + "." + ext;
    forall k | 0 <= k < |base| ensures base[k] != '/' {
      if k < |name| { assert base[k] == name[k]; }
      else if k > |name| { assert base[k] == ext[k - |name| - 1]; }
    }
  }

  /** `name.ext` is `..` only for the name `.` without extension. */
  lemma FileNameNotParent(name: string, ext: string)
    requires name != [] && !(name == "." && ext == [])
    ensures name + "." + ext != ".."
  {
    var base := name + "." + ext;
    if |name| == 1 && ext == [] {
      assert base[0] == name[0];
      assert name != "." ==> name[0] != '.';
    }
  }

  /** The name of `prefix/base`, where `base` has an extension starting at `i`, is `base[..i]`. */
  lemma NameOfSegment(prefix: string, base: string, i: nat)
    requires base != [] && '/' !in base && base != ".."
    requires LastDot(base) == Some(i) && i != 0
    ensures ParseName(prefix + "/" + base) == base[..i]
  {
    BaseOfSegment(prefix, base);
  }

  /**
   * The stem of a download URL: for `prefix/name.ext` with one extension, the
   * name is what remains once the extension is dropped (`file-v1.app` gives
   * `file-v1`).
   */
  lemma FileStem(prefix: string, name: string, ext: string)
    requires name != [] && '/' !in name
    requires '/' !in ext && '.' !in ext
    requires !(name == "." && ext == [])
    ensures ParseName(prefix + "/" + name + "." + ext) == name
  {
    var base := name + "." + ext;
    NoSeparatorInFileName(name, ext);
    LastDotBeforeExtension(name, ext);
    FileNameNotParent(name, ext);
    NameOfSegment(prefix, base, |name|);
    assert base[..|name|] == name;
    PathOfFile(prefix, name, ext);
  }

  /** `prefix/name.ext` is `prefix` joined to the segment `name.ext`. */
  lemma PathOfFile(prefix: string, name: string, ext: string)
    ensures prefix + "/" + name + "." + ext == prefix + "/" + (name + "." + ext)
  {
  }

  /** The name of `prefix/base`, where the only `.` of `base` opens it, is all of `base`. */
  lemma NameOfDotFile(prefix: string, base: string)
    requires base != [] && '/' !in base && LastDot(base) == Some(0)
    ensures ParseName(prefix + "/" + base) == base
  {
    BaseOfSegment(prefix, base);
  }

  /** A base name whose only `.` opens it (a dot file such as `.app`) has no extension. */
  lemma DotFileKeepsName(prefix: string, rest: string)
    requires '/' !in rest && '.' !in rest
    ensures ParseName(prefix + "/" + ("." + rest)) == "." + rest
  {
    assert [] + "." + rest == "." + rest;
    NoSeparatorInFileName([], rest);
    LastDotBeforeExtension([], rest);
    NameOfDotFile(prefix, "." + rest);
  }

  /** A base name without `.` has no extension: its name is all of it. */
  lemma NoExtensionKeepsName(prefix: string, base: string)
    requires base != [] && '/' !in base && '.' !in base
    ensures ParseName(prefix + "/" + base) == base
  {
    BaseOfSegment(prefix, base);
  }

  /** `s` is its own last segment when it holds no separator. */
  lemma {:induction false} AfterLastSlashWhole(s: string)
    requires '/' !in s
    ensures AfterLastSlash(s) == s
  {
    if s != [] {
      var init := s[..|s| - 1];
      assert '/' !in init by {
        forall k | 0 <= k < |init| ensures init[k] != '/' {
          assert init[k] == s[k];
        }
      }
      AfterLastSlashWhole(init);
      assert init + [s[|s| - 1]] == s;
    }
  }

  /** A path without a separator is its own base name. */
  lemma BareBaseName(p: string)
    requires '/' !in p
    ensures BaseName(p) == p
  {
    assert TrimTrailingSlashes(p) == p by {
      if p != [] {
        assert p[|p| - 1] in p;
      }
    }
    AfterLastSlashWhole(p);
  }

  /** A bare file name `name.ext` with one extension has the name `name`. */
  lemma BareFileStem(name: string, ext: string)
    requires name != [] && '/' !in name
    requires '/' !in ext && '.' !in ext
    requires !(name == "." && ext == [])
    ensures ParseName(name + "." + ext) == name
  {
    var base := name + "." + ext;
    NoSeparatorInFileName(name, ext);
    BareBaseName(base);
    LastDotBeforeExtension(name, ext);
    FileNameNotParent(name, ext);
    assert base[..|name|] == name;
  }

  /** A bare name without `.` and without a separator is its own name. */
  lemma BareNoExtension(base: string)
    requires '/' !in base && '.' !in base
    ensures ParseName(base) == base
  {
    BareBaseName(base);
  }

  /** Trailing separators do not change the base name: `dir/` names `dir`. */
  lemma TrailingSlashIgnored(p: string)
    ensures BaseName(p + "/") == BaseName(p)
  {
    var s := p + "/";
    assert s[|s| - 1] == '/' && s[..|s| - 1] == p;
  }

  /** A last segment `..` below some directory has no extension: its name is `..`. */
  lemma ParentKeepsName(prefix: string)
    requires prefix != []
    ensures ParseName(prefix + "/" + "..") == ".."
  {
    var p := prefix + "/" + "..";
    BaseOfSegment(prefix, "..");
    assert LastDot("..") == Some(1);
    assert TrimTrailingSlashes(p) == p by {
      assert p[|p| - 1] == '.';
    }
    assert |p| > 3;
  }

  /** `..` right after the root reads as the name `.` with the extension `.`, trailing separators or not. */
  lemma RootParentName(trailing: nat)
    ensures ParseName("/.." + seq(trailing, _ => '/')) == "."
  {
    var p := "/.." + seq(trailing, _ => '/');
    TrimmedRootParent(trailing);
    assert AfterLastSlash("/..") == ".." by {
      assert "/.."[..2] == "/.";
      assert "/."[..1] == "/";
    }
    assert LastDot("..") == Some(1);
  }

  /** Trailing separators after `/..` are all trimmed. */
  lemma {:induction false} TrimmedRootParent(trailing: nat)
    ensures TrimTrailingSlashes("/.." + seq(trailing, _ => '/')) == "/.."
  {
    var p := "/.." + seq(trailing, _ => '/');
    if trailing == 0 {
      assert p == "/..";
    } else {
      assert p[|p| - 1] == '/';
      assert p[..|p| - 1] == "/.." + seq(trailing - 1, _ => '/');
      TrimmedRootParent(trailing - 1);
    }
  }
}

=== FILE: registry.dfy ===
/**
 * The fixed tables of the `expo` entry point: the command registry with its
 * lazily loaded implementations (as opaque ids), the default command, the
 * table of legacy names and their replacements, the deprecated names, and the
 * grouping of registry entries the usage listing prints.
 */
module Registry {

  /** The lazily imported implementation behind each registered command, as an opaque id. */
  datatype CommandId =
    | RunIos | RunAndroid | Start | Prebuild | Config | Export | ExportWeb
    | Install | Customize
    | Login | Logout | Register | Whoami

  /** The command used when the first positional is not a registered command. */
  const DefaultCmd: string := "start"

  /** The command registry: a string-keyed table from each name to its loader. */
  const Commands: map<string, CommandId> := map[
    "run:ios" := RunIos,
    "run:android" := RunAndroid,
    "start" := Start,
    "prebuild" := Prebuild,
    "config" := Config,
    "export" := Export,
    "export:web" := ExportWeb,
    "install" := Install,
    "customize" := Customize,
    "login" := Login,
    "logout" := Logout,
    "register" := Register,
    "whoami" := Whoami
  ]

  /** The default command is registered, with the `start` loader. */
  lemma DefaultRegistered()
    ensures DefaultCmd in Commands && Commands[DefaultCmd] == Start
  {
  }

  /** The registry's entries in the order the object literal declares them (the order `Object.keys` reports). */
  const DeclarationOrder: seq<CommandId> := [
    RunIos, RunAndroid, Start, Prebuild, Config, Export, ExportWeb,
    Install, Customize,
    Login, Logout, Register, Whoami
  ]

  /** Legacy command names and the tool invocation that replaces each one. */
  const MigrationMap: map<string, string> := map[
    "init" := "npx create-expo-app",
    "eject" := "npx expo prebuild",
    "web" := "npx expo start --web",
    "start:web" := "npx expo start --web",
    "build:ios" := "eas build -p ios",
    "build:android" := "eas build -p android",
    "client:install:ios" := "npx expo start --ios",
    "client:install:android" := "npx expo start --android",
    "doctor" := "expo doctor",
    "upgrade" := "expo upgrade",
    "customize:web" := "npx expo customize",
    "publish" := "eas update",
    "publish:set" := "eas update",
    "publish:rollback" := "eas update",
    "publish:history" := "eas update",
    "publish:details" := "eas update",
    "build:web" := "npx expo export",
    "credentials:manager" := "eas credentials",
    "fetch:ios:certs" := "eas credentials",
    "fetch:android:keystore" := "eas credentials",
    "fetch:android:hashes" := "eas credentials",
    "fetch:android:upload-cert" := "eas credentials",
    "push:android:upload" := "eas credentials",
    "push:android:show" := "eas credentials",
    "push:android:clear" := "eas credentials",
    "url" := "eas build:list",
    "url:ipa" := "eas build:list",
    "url:apk" := "eas build:list",
    "webhooks" := "eas webhook",
    "webhooks:add" := "eas webhook:create",
    "webhooks:remove" := "eas webhook:delete",
    "webhooks:update" := "eas webhook:update",
    "build:status" := "eas build:list",
    "upload:android" := "eas submit -p android",
    "upload:ios" := "eas submit -p ios"
  ]

  /** Names that are reported as deprecated. */
  const Deprecated: seq<string> := ["send", "client:ios"]

  /** The registry entries the usage listing picks out by name; the rest are gathered as `others`. */
  const Destructured: set<CommandId> := {
    Login, Logout, Whoami, Register, Start, Install,
    Export, Config, Customize, Prebuild, RunIos, RunAndroid
  }

  /** The elements of `s` that are not in `excluded`, in their order. */
  function Without<T(==)>(s: seq<T>, excluded: set<T>): (r: seq<T>)
    ensures |r| <= |s|
  {
    if s == [] then []
    else if s[0] in excluded then Without(s[1..], excluded)
    else [s[0]] + Without(s[1..], excluded)
  }

  /** An element survives the filter exactly when it is in `s` and not excluded. */
  lemma {:induction false} WithoutMembers<T>(s: seq<T>, excluded: set<T>, x: T)
    ensures x in Without(s, excluded) <==> x in s && x !in excluded
  {
    if s != [] {
      WithoutMembers(s[1..], excluded, x);
      assert x in s <==> x == s[0] || x in s[1..];
    }
  }

  /** Filtering a list all of whose entries are excluded leaves nothing. */
  lemma {:induction false} WithoutAllExcluded<T>(s: seq<T>, excluded: set<T>)
    requires forall k :: 0 <= k < |s| ==> s[k] in excluded
    ensures Without(s, excluded) == []
  {
    if s != [] {
      assert forall k :: 0 <= k < |s[1..]| ==> s[1..][k] == s[k + 1];
      WithoutAllExcluded(s[1..], excluded);
    }
  }

  /** Filtering a list in which only the entry at `j` survives leaves just that entry. */
  lemma {:induction false} WithoutSingle<T>(s: seq<T>, excluded: set<T>, j: nat)
    requires j < |s| && s[j] !in excluded
    requires forall k :: 0 <= k < |s| && k != j ==> s[k] in excluded
    ensures Without(s, excluded) == [s[j]]
  {
    assert forall k :: 0 <= k < |s[1..]| ==> s[1..][k] == s[k + 1];
    if j == 0 {
      WithoutAllExcluded(s[1..], excluded);
    } else {
      WithoutSingle(s[1..], excluded, j - 1);
    }
  }

  /** No element occurs twice. */
  predicate Distinct<T(==)>(s: seq<T>) {
    forall i, j :: 0 <= i < j < |s| ==> s[i] != s[j]
  }

  /** The registry entries the usage listing does not name (`...others`), in declaration order. */
  function Others(): seq<CommandId> {
    Without(DeclarationOrder, Destructured)
  }

  /** The four lines of the usage listing: main, run, auxiliary and (dimmed) auth commands. */
  function UsageGroups(): seq<seq<CommandId>> {
    [
      [Start, Export] + Others(),
      [RunIos, RunAndroid, Prebuild],
      [Install, Customize, Config],
      [Login, Logout, Whoami, Register]
    ]
  }

  /** The first usage line is `start`, `export`, then the other commands. */
  lemma UsageHead()
    ensures UsageGroups()[0] == [Start, Export] + Others()
  {
  }

  /** All entries of a usage listing, line after line. */
  function Flatten<T>(groups: seq<seq<T>>): seq<T> {
    if groups == [] then [] else groups[0] + Flatten(groups[1..])
  }

  /** A four-line listing, read line after line. */
  lemma FlattenFour<T>(g: seq<seq<T>>)
    requires |g| == 4
    ensures Flatten(g) == g[0] + g[1] + g[2] + g[3]
  {
    assert Flatten(g[4..]) == [];
    assert Flatten(g[3..]) == g[3];
    assert Flatten(g[2..]) == g[2] + g[3];
  }
}

=== FILE: wrappers.dfy ===
/** Option and Result values shared by the models of the CLI entry point and the Expo Go download. */
module Wrappers {

  /** A value that may be absent (an optional property or an `undefined` lookup). */
  datatype Option<+T> = None | Some(value: T)

  /** The outcome of an operation that either returns a value or throws an error. */
  datatype Result<+R, +E> = Success(value: R) | Failure(error: E)
}
